=== FILE: README.md ===
# Retrieval-result formatting of the RAG documentation assistant

This project is a Dafny model of the pure core of `src/agent.py`. That file wires an LLM agent to three retrieval tools backed by a vector collection:

- `retrieve_relevant_documentation`: semantic search over the collection.
- `list_documentation_pages`: the list of stored page URLs.
- `get_page_content`: one page, rebuilt from its chunks.

The model covers what each tool does once the store has answered, and the zero-vector fallback of `get_embedding`. The store's answer is an input. It is either the parallel `documents` / `metadatas` lists (`Store.StoreAnswer.Answer`) or a raised error (`StoreFailed`).

Each metadata record is a `Store.Meta` with optional `title`, `url` and `chunk_number` fields. Reading a missing key raises a `KeyError` inside the tool. The model represents that as a `Store.Fault`, and `Store.Message` gives the text Python prints for it (`'title'`). Each tool turns every fault into its error value, as the source's `except` blocks do.

Modules:

- `Wrappers`: `Option` and `Result`.
- `Text`: Python's `join`, substring occurrence and `endswith`.
- `StringOrder`: Python's `<` on `str`, proved a strict total order.
- `Store`: metadata records, store answers, faults and `zip`.
- `Embedding`: `get_embedding`.
- `Search`: the similarity-search tool.
- `Listing`: the page-listing tool, i.e. `sorted(set(...))`.
- `ChunkSort`: Python's stable `sorted` by `chunk_number`, as an insertion sort.
- `Page`: the page tool, including the title cut at `" - "`.

Two facts about the source that a reader might not expect:

- A page's heading `"# " + title + "\n"` (src/agent.py:153) is joined to the bodies with `"\n\n"` (src/agent.py:158). So a page of chunks `A`, `B` with title `T - 1` renders as `"# T\n\n\nA\n\nB"`, with three newlines after the title (`Page.TwoChunkPage`).
- An embedding of length 1536 is built only on the fallback path (src/agent.py:78-81). On success the service's vector is passed on without a length check (`Embedding.GetEmbedding`, `Embedding.EmbeddingHasFixedLength`).

Edge cases the code produces and the model keeps:

- A search whose document list is non-empty but whose metadata list is empty zips to nothing and returns `""`.
- A page query in that situation fails at `sorted_results[0]` with `IndexError`, giving `"Error retrieving page content: list index out of range"`.
- Python's `sorted` computes every key before comparing any. So a page fails on a missing `chunk_number` in any chunk, even when there is only one chunk.
- A single record without `url` empties the whole page listing.

## Model

| member | source | states |
|---|---|---|
| Store.Zip | src/agent.py:102 | Python's `zip` of documents and metadata (also used at line 148) has exactly `min(len(docs), len(metas))` pairs, and pair i is document i with metadata i. |
| Store.Message | src/agent.py:116 | `str(e)` of a `KeyError` is its key in single quotes. An `IndexError` reads `list index out of range`, and a store error is its own message. The same conversion is used at line 162. |
| Store.KeyMessagesDistinct | src/agent.py:116 | Two `KeyError` messages agree exactly when they name the same key, and none equals the `IndexError` message. So the error text identifies which failure occurred. |
| Embedding.GetEmbedding | src/agent.py:72-81 | The service's first vector is returned as is. A failed call, or a response with no data, gives a vector of exactly 1536 entries that are all zero. |
| Embedding.EmbeddingHasFixedLength | src/agent.py:74-81 | The result always has length 1536, provided every vector the service returns has that length. |
| Search.Block | src/agent.py:103-109 | The block is `"\n# " + title + "\n\n"`, then the hit's document, then `"\n\nSource: " + url + "\n"`. |
| Search.BlockLength | src/agent.py:103-109 | The block's length is the lengths of title, document and URL plus 16. With `Search.Block`'s prefix, document position and suffix, that fixes every character of the block. |
| Search.RenderChunk | src/agent.py:103-109 | The f-string reads `title` before `url`. A hit without `title` fails with `KeyError('title')` whether or not it has `url`. A hit with `title` but no `url` fails with `KeyError('url')`. Rendering succeeds exactly when both keys are present and then yields the block. |
| Search.RenderAll | src/agent.py:101-110 | Rendering succeeds exactly when every zipped hit has `title` and `url`. On success there is one block per hit, block i belongs to hit i, and nothing is re-ranked. On failure the error names the missing key of the first hit lacking one. |
| Search.FirstUnrenderable | src/agent.py:102-110 | The first hit without `title` or `url` decides the error, whatever follows it. |
| Search.SearchText | src/agent.py:92-116 | Store error gives `Error retrieving documentation: ` plus the message. An empty first document list gives exactly `No relevant documentation found.`. When every zipped hit has `title` and `url`, the result is the `min(len(docs), len(metas))` blocks joined by `\n\n---\n\n`. Otherwise it is the error prefix plus the `KeyError` text of the first hit's missing key (`'title'` before `'url'`). |
| Search.SearchOutcomeIsRecognisable | src/agent.py:98-116 | The result starts with the error prefix if and only if the store failed or a zipped hit lacks a key. It equals the sentinel if and only if the document list was empty. |
| Search.FormatSearchResults | src/agent.py:101-112 | The loop that appends a block per zipped hit and returns at the first missing key computes exactly the search result above. |
| Search.RetrieveRelevantDocumentation | src/agent.py:89-116 | If the embedding call raised or returned no vectors, the tool still queries the store, using the 1536-long zero vector. Otherwise it renders the store's answer to the service's first vector. The result carries the error prefix if and only if the store failed or a zipped hit lacks `title` or `url`. |
| Search.TwoHits | src/agent.py:101-112 | Two hits from different pages yield both blocks, in ranking order, joined by the rule, each ending with its own `Source:` line. |
| StringOrder.LessTransitive | src/agent.py:128 | Python's string order is transitive. |
| StringOrder.LessTotal | src/agent.py:128 | Any two different strings are ordered one way or the other. |
| StringOrder.LessIrreflexive | src/agent.py:128 | No string is below itself. |
| Listing.Urls | src/agent.py:128 | The generator over the records yields one URL per record, in record order. A URL occurs in it if and only if some record carries it. |
| Listing.InsertDistinct | src/agent.py:128 | Adding a URL to an ascending, repetition-free list keeps it ascending and repetition-free. It adds exactly that URL to its elements. |
| Listing.SortedDistinct | src/agent.py:128 | `sorted(set(xs))` is strictly ascending and has exactly the elements of `xs`. |
| Listing.AscendingUnique | src/agent.py:128 | Two strictly ascending lists with the same elements are equal, so `sorted(set(...))` has only one possible result. |
| Listing.SortedDistinctIdempotent | src/agent.py:128 | Sorting and deduplicating an already sorted, deduplicated list changes nothing. |
| Listing.ListDocumentationPages | src/agent.py:120-133 | The listing is strictly ascending, so it has no duplicates. A URL is in it if and only if the store answered, every record has `url`, and some record carries that URL. A store error gives `[]`. |
| Listing.ListingIgnoresOrderAndRepeats | src/agent.py:125-129 | Two answers whose records all carry `url` and name the same set of URLs give the same listing, however the records are ordered or repeated. An answer with a record lacking `url` gives `[]` instead, per `Listing.EmptyListingMeansNoUrls`. |
| Listing.EmptyListingMeansNoUrls | src/agent.py:122-133 | The listing is empty if and only if the store failed, returned no records, or some record lacks `url`. |
| ChunkSort.Insert | src/agent.py:147-150 | Insertion into a list sorted by `chunk_number` keeps it sorted. It adds exactly the inserted chunk. |
| ChunkSort.InsertKeepsTies | src/agent.py:147-150 | The inserted chunk goes ahead of the chunks already there with the same `chunk_number`. |
| ChunkSort.SortByKey | src/agent.py:147-150 | The sorted chunks are a permutation of the zipped input. They are non-decreasing in `chunk_number`, and equal numbers keep their retrieval order, as Python's stable `sorted` does. |
| ChunkSort.StableSortUnique | src/agent.py:147-150 | Two lists sorted by key with the same per-key subsequences are equal: the stable sort has one result. |
| ChunkSort.StableSortIsSortByKey | src/agent.py:147-150 | Any stable sort of the chunks is the model's sort. |
| ChunkSort.SortIgnoresArrivalOrder | src/agent.py:147-150 | With distinct chunk numbers, any two arrival orders of the same chunks sort to the same list. |
| Page.SortsOutOfOrderChunks | src/agent.py:147-150 | Chunks arriving numbered 3, 1, 2 come out numbered 1, 2, 3. |
| Page.PageTitle | src/agent.py:152 | The page title is a prefix of the chunk title, with no `" - "` starting inside it. It is either the whole title or is followed by `" - "`, i.e. the cut is at the first separator. |
| Page.PageTitleIsFirstCut | src/agent.py:152 | Any prefix cut at the first `" - "`, or the whole title when there is none, is the page title. |
| Page.PageTitleHasNoSeparator | src/agent.py:152 | A page title never contains `" - "`. |
| Page.PageTitleIdempotent | src/agent.py:152 | Cutting a page title again changes nothing. |
| Page.TitleBeforeSeparator | src/agent.py:152 | For a title `P - rest` whose `P` has no hyphen, the page title is `P`. |
| Page.AcmeTitle | src/agent.py:152 | `Acme University - Introduction` gives the page title `Acme University`. |
| Page.PageText | src/agent.py:153-158 | The joined page is the heading `"# " + title + "\n"` followed by `"\n\n" + doc` for each document, in order. |
| Page.AssemblePage | src/agent.py:147-158 | A chunk without `chunk_number` gives `KeyError('chunk_number')`. No zipped chunk gives `IndexError`. A first sorted chunk without `title` gives `KeyError('title')`. Otherwise the result is the heading of the cut title, then the bodies in sorted order. |
| Page.GetPageContent | src/agent.py:137-162 | Store error gives `Error retrieving page content: ` plus the message. An empty document list gives exactly `No content found for URL: ` plus the URL. Otherwise the result is the assembled page, or the error prefix plus the fault's message. |
| Page.PageOutcomeIsRecognisable | src/agent.py:139-162 | The result starts with the error prefix if and only if one of three things happened: the store failed, a needed key is missing, or no document could be zipped with a metadata record (the `IndexError` at `sorted_results[0]`). It starts with the no-content prefix if and only if no document came back. |
| Page.PageIgnoresRetrievalOrder | src/agent.py:140-158 | With distinct chunk numbers, the page text does not depend on the order in which the store returned the chunks. |
| Page.TwoChunkPage | src/agent.py:147-158 | Chunks `A` (`T - 1`, number 1) and `B` (number 2) give exactly `"# T\n\n\nA\n\nB"`. |
| Text.Join | src/agent.py:112 | `sep.join(parts)` of no parts is empty. Otherwise it starts with the first part, and its length is the parts' total length plus one `sep` per gap. The same `join` is used at line 158. |
| Text.JoinAfterHead | src/agent.py:158 | `sep.join([head] + parts)` is `head` followed by `sep + part` for each part. |
| Text.JoinStartsWithFirst | src/agent.py:112 | A join of at least one part starts with the first part. |

## Left out

- Module setup is not modelled: dotenv loading, model selection, logfire configuration, the system prompt and the agent with its `retries=2` (src/agent.py:17-23, 33-69). It is configuration of third-party frameworks.
- The OpenAI embeddings call is not modelled: its outcome is the input `Embedding.EmbeddingResponse`.
- ChromaDB's `query` and `get` are not modelled. Their answers are inputs, so nearest-neighbour ranking, the `n_results=5` cap and the `where={"url": url}` filter belong to the store. The page model does not check that returned chunks carry the requested URL.
- The query result's outer per-embedding list (`results["documents"][0]`) is flattened into one document list.
- A store answer without a `metadatas` entry is not modelled.
- Async/await and the `print` diagnostics are left out; neither affects a returned value.
- Embedding values are `real`; floating-point behaviour is not modelled.
- A store error's text is an opaque input string. Only `KeyError` and `IndexError` messages are spelled out.
- Metadata values are strings and integers. The f-string `str()` of other types and the `TypeError` from comparing mixed `chunk_number` types are not modelled.
- A `None` document or a `None` metadata record is not modelled: every document is a string and every record is a `Store.Meta`. In the source such records give a `TypeError` (`'NoneType' object is not subscriptable`) at lines 104, 128 or 149. A `None` document is rendered as `None` in a search block and makes the page join at line 158 raise.
- Embedding.EmbeddingHasFixedLength: the length 1536 on the success path rests on the service returning 1536-long vectors, because the source does not check it.
- Page.PageIgnoresRetrievalOrder: assumes distinct chunk numbers, because with repeated numbers the source keeps retrieval order among ties, which `ChunkSort.SortByKey` states instead.
- An empty page listing cannot tell a store failure from an empty collection. The source returns `[]` for both, and the model keeps that.

=== FILE: chunk_sort.dfy ===
/** Python's stable `sorted(pairs, key=lambda x: x[1]["chunk_number"])`, as an insertion sort. */
module ChunkSort {
  import opened Store

  /** The sort key. The page tool sorts only after every record has been found to carry `chunk_number`. */
  function Key(c: Chunk): int {
    c.meta.chunkNumber.GetOr(0)
  }

  predicate AllKeyed(s: seq<Chunk>) {
    forall i :: 0 <= i < |s| ==> s[i].meta.chunkNumber.Some?
  }

  predicate SortedByKey(s: seq<Chunk>) {
    forall i, j :: 0 <= i < j < |s| ==> Key(s[i]) <= Key(s[j])
  }

  /** `[c]` when `c` has key `k`, otherwise nothing. */
  function Tie(c: Chunk, k: int): seq<Chunk> {
    if Key(c) == k then [c] else []
  }

  /** The chunks of `s` with key `k`, in their order in `s`. */
  function WithKey(s: seq<Chunk>, k: int): seq<Chunk>
    decreases |s|
  {
    if |s| == 0 then [] else Tie(s[0], k) + WithKey(s[1..], k)
  }

  /** A stable sort of `s`: ordered by key, with the chunks of each key in their original order. */
  ghost predicate IsStableSortOf(r: seq<Chunk>, s: seq<Chunk>) {
    SortedByKey(r) && forall k :: WithKey(r, k) == WithKey(s, k)
  }

  /** Every chunk of `t` has key at least `lo` when every chunk of a rearrangement of it does. */
  lemma KeysFrom(lo: int, t: seq<Chunk>, u: seq<Chunk>)
    requires multiset(t) == multiset(u)
    requires forall j :: 0 <= j < |u| ==> lo <= Key(u[j])
    ensures forall k :: 0 <= k < |t| ==> lo <= Key(t[k])
  {
    forall k | 0 <= k < |t| ensures lo <= Key(t[k]) {
      assert t[k] in multiset(u);
    }
  }

  /** A chunk whose key is at most the first key of a sorted list can go in front of it. */
  lemma ConsSorted(x: Chunk, s: seq<Chunk>)
    requires SortedByKey(s)
    requires forall j :: 0 <= j < |s| ==> Key(x) <= Key(s[j])
    ensures SortedByKey([x] + s)
  {
    var r := [x] + s;
    forall i, j | 0 <= i < j < |r| ensures Key(r[i]) <= Key(r[j]) {
      if 0 < i {
        assert r[i] == s[i - 1] && r[j] == s[j - 1];
      }
    }
  }

  /** Places `c` before the first chunk whose key is not below its own. */
  function Insert(c: Chunk, s: seq<Chunk>): (r: seq<Chunk>)
    requires SortedByKey(s)
    ensures SortedByKey(r)
    ensures multiset(r) == multiset(s) + multiset{c}
    decreases |s|
  {
    if |s| == 0 || Key(c) <= Key(s[0]) then
      ConsSorted(c, s);
      [c] + s
    else
      var t := Insert(c, s[1..]);
      assert s == [s[0]] + s[1..];
      KeysFrom(Key(s[0]), t, s[1..] + [c]);
      ConsSorted(s[0], t);
      [s[0]] + t
  }

  lemma WithKeyCons(x: Chunk, s: seq<Chunk>, k: int)
    ensures WithKey([x] + s, k) == Tie(x, k) + WithKey(s, k)
  {
    assert ([x] + s)[1..] == s;
  }

  /** Chunks with different keys never both belong to one key's group. */
  lemma TiesCommute(a: Chunk, b: Chunk, k: int, w: seq<Chunk>)
    requires Key(a) != Key(b)
    ensures Tie(a, k) + (Tie(b, k) + w) == Tie(b, k) + (Tie(a, k) + w)
  {
    if Key(a) == k {
      assert Tie(b, k) == [];
    } else {
      assert Tie(a, k) == [];
    }
  }

  /** Inserting `c` into a sorted list adds it to its key's group ahead of the chunks already there. */
  lemma {:induction false} InsertKeepsTies(c: Chunk, s: seq<Chunk>, k: int)
    requires SortedByKey(s)
    ensures WithKey(Insert(c, s), k) == Tie(c, k) + WithKey(s, k)
    decreases |s|
  {
    if |s| == 0 || Key(c) <= Key(s[0]) {
      WithKeyCons(c, s, k);
    } else {
      var t := Insert(c, s[1..]);
      assert Insert(c, s) == [s[0]] + t;
      calc {
        WithKey([s[0]] + t, k);
        { WithKeyCons(s[0], t, k); }
        Tie(s[0], k) + WithKey(t, k);
        { InsertKeepsTies(c, s[1..], k); }
        Tie(s[0], k) + (Tie(c, k) + WithKey(s[1..], k));
        { TiesCommute(s[0], c, k, WithKey(s[1..], k)); }
        Tie(c, k) + (Tie(s[0], k) + WithKey(s[1..], k));
        { WithKeyCons(s[0], s[1..], k); assert [s[0]] + s[1..] == s; }
        Tie(c, k) + WithKey(s, k);
      }
    }
  }

  /** The insertion sort of `s`. */
  function SortByKey(s: seq<Chunk>): (r: seq<Chunk>)
    ensures SortedByKey(r)
    ensures multiset(r) == multiset(s)
    ensures forall k :: WithKey(r, k) == WithKey(s, k)
    decreases |s|
  {
    if |s| == 0 then []
    else
      var t := SortByKey(s[1..]);
      assert s == [s[0]] + s[1..];
      assert forall k :: WithKey(Insert(s[0], t), k) == Tie(s[0], k) + WithKey(t, k) by {
        forall k ensures WithKey(Insert(s[0], t), k) == Tie(s[0], k) + WithKey(t, k) {
          InsertKeepsTies(s[0], t, k);
        }
      }
      Insert(s[0], t)
  }

  lemma WithKeyOfHead(s: seq<Chunk>)
    requires 0 < |s|
    ensures WithKey(s, Key(s[0])) == [s[0]] + WithKey(s[1..], Key(s[0]))
  {
  }

  /** No chunk of a sorted list has a key below that of its head. */
  lemma {:induction false} WithKeyBelowHead(s: seq<Chunk>, k: int)
    requires SortedByKey(s) && 0 < |s| && k < Key(s[0])
    ensures WithKey(s, k) == []
    decreases |s|
  {
    if 1 < |s| {
      WithKeyBelowHead(s[1..], k);
    }
  }

  /** Two lists sorted by key with the same chunks per key, in the same order, are the same list: the stable sort is unique. */
  lemma {:induction false} StableSortUnique(a: seq<Chunk>, b: seq<Chunk>)
    requires SortedByKey(a) && SortedByKey(b)
    requires forall k :: WithKey(a, k) == WithKey(b, k)
    ensures a == b
    decreases |a|
  {
    if 0 < |a| {
      WithKeyOfHead(a);
      assert WithKey(b, Key(a[0])) != [];
    }
    if 0 < |b| {
      WithKeyOfHead(b);
      assert WithKey(a, Key(b[0])) != [];
    }
    if 0 < |a| && 0 < |b| {
      if Key(a[0]) < Key(b[0]) {
        WithKeyBelowHead(b, Key(a[0]));
        assert false;
      }
      if Key(b[0]) < Key(a[0]) {
        WithKeyBelowHead(a, Key(b[0]));
        assert false;
      }
      assert a[0] == WithKey(a, Key(a[0]))[0] == WithKey(b, Key(b[0]))[0] == b[0];
      forall k ensures WithKey(a[1..], k) == WithKey(b[1..], k) {
        var p := Tie(a[0], k);
        assert WithKey(a[1..], k) == WithKey(a, k)[|p|..];
        assert WithKey(b[1..], k) == WithKey(b, k)[|p|..];
      }
      StableSortUnique(a[1..], b[1..]);
      assert a == [a[0]] + a[1..] && b == [b[0]] + b[1..];
    }
  }

  /** Any stable sort of `s` is the insertion sort of `s`. */
  lemma StableSortIsSortByKey(r: seq<Chunk>, s: seq<Chunk>)
    requires IsStableSortOf(r, s)
    ensures r == SortByKey(s)
  {
    StableSortUnique(r, SortByKey(s));
  }

  predicate DistinctKeys(s: seq<Chunk>) {
    forall i, j :: 0 <= i < j < |s| ==> Key(s[i]) != Key(s[j])
  }

  lemma {:induction false} WithKeyOfDistinct(s: seq<Chunk>, i: nat)
    requires DistinctKeys(s) && i < |s|
    ensures WithKey(s, Key(s[i])) == [s[i]]
    decreases |s|
  {
    if i == 0 {
      WithKeyAbsent(s[1..], Key(s[0]));
    } else {
      WithKeyOfDistinct(s[1..], i - 1);
    }
  }

  lemma {:induction false} WithKeyAbsent(s: seq<Chunk>, k: int)
    requires forall i :: 0 <= i < |s| ==> Key(s[i]) != k
    ensures WithKey(s, k) == []
    decreases |s|
  {
    if 0 < |s| {
      WithKeyAbsent(s[1..], k);
    }
  }

  /** With distinct keys, two rearrangements of the same chunks sort to the same list. */
  lemma SortIgnoresArrivalOrder(s1: seq<Chunk>, s2: seq<Chunk>)
    requires multiset(s1) == multiset(s2)
    requires DistinctKeys(s1) && DistinctKeys(s2)
    ensures SortByKey(s1) == SortByKey(s2)
  {
    forall k ensures WithKey(s1, k) == WithKey(s2, k) {
      if i :| 0 <= i < |s1| && Key(s1[i]) == k {
        assert s1[i] in multiset(s2);
        var j :| 0 <= j < |s2| && s2[j] == s1[i];
        WithKeyOfDistinct(s1, i);
        WithKeyOfDistinct(s2, j);
      } else {
        forall j | 0 <= j < |s2| ensures Key(s2[j]) != k {
          assert s2[j] in multiset(s1);
        }
        WithKeyAbsent(s1, k);
        WithKeyAbsent(s2, k);
      }
    }
    StableSortUnique(SortByKey(s1), SortByKey(s2));
  }
}

=== FILE: embedding.dfy ===
/** The embedding adapter: the service's vector, or a zero vector when the call fails. */
module Embedding {

  /** Length of a `text-embedding-3-small` vector, and of the fallback. */
  const Dimension: nat := 1536

  /** What the embeddings call produced: the response's `data` entries, or a raised error. */
  datatype EmbeddingResponse = Responded(data: seq<seq<real>>) | EmbeddingFailed(message: string)

  /** `get_embedding`: the first returned vector; any failure, including an empty `data`, gives zeros. */
  function GetEmbedding(response: EmbeddingResponse): (v: seq<real>)
    ensures response.Responded? && 0 < |response.data| ==> v == response.data[0]
    ensures response.EmbeddingFailed? || |response.data| == 0 ==>
              |v| == Dimension && forall i :: 0 <= i < |v| ==> v[i] == 0.0
  {
    if response.Responded? && 0 < |response.data| then response.data[0]
    else seq(Dimension, _ => 0.0)
  }

  /** As long as the service itself returns well-shaped vectors, every vector the adapter hands on has the fixed length. */
  lemma EmbeddingHasFixedLength(response: EmbeddingResponse)
    requires response.Responded? ==> forall k :: 0 <= k < |response.data| ==> |response.data[k]| == Dimension
    ensures |GetEmbedding(response)| == Dimension
  {
  }
}

=== FILE: listing.dfy ===
/** `list_documentation_pages`: every stored URL once, in ascending order. */
module Listing {
  import opened Wrappers
  import opened Store
  import opened StringOrder

  function Elements(s: seq<string>): set<string> {
    set x | x in s
  }

  /** Every element of `t` lies above `y`, given a bound on `t`'s elements all of which do. */
  lemma AllAbove(y: string, t: seq<string>, bound: set<string>)
    requires Elements(t) <= bound
    requires forall e :: e in bound ==> Less(y, e)
    ensures forall k :: 0 <= k < |t| ==> Less(y, t[k])
  {
    forall k | 0 <= k < |t|
      ensures Less(y, t[k])
    {
      assert t[k] in Elements(t);
    }
  }

  lemma HeadBelowInsert(x: string, s: seq<string>, t: seq<string>)
    requires StrictlyAscending(s) && 0 < |s| && x != s[0] && !Less(x, s[0])
    requires Elements(t) == Elements(s[1..]) + {x}
    ensures forall k :: 0 <= k < |t| ==> Less(s[0], t[k])
  {
    LessTotal(x, s[0]);
    forall e | e in Elements(s[1..]) + {x} ensures Less(s[0], e) {
      if e != x {
        var j :| 0 <= j < |s[1..]| && s[1..][j] == e;
        assert s[j + 1] == e;
      }
    }
    AllAbove(s[0], t, Elements(s[1..]) + {x});
  }

  /** Adds `x` to an ascending, repetition-free list, keeping it so. */
  function InsertDistinct(x: string, s: seq<string>): (r: seq<string>)
    requires StrictlyAscending(s)
    ensures StrictlyAscending(r)
    ensures Elements(r) == Elements(s) + {x}
    decreases |s|
  {
    if |s| == 0 then [x]
    else if x == s[0] then s
    else if Less(x, s[0]) then
      assert forall j :: 0 < j < |s| ==> Less(x, s[j]) by {
        forall j | 0 < j < |s| ensures Less(x, s[j]) {
          LessTransitive(x, s[0], s[j]);
        }
      }
      [x] + s
    else
      var t := InsertDistinct(x, s[1..]);
      HeadBelowInsert(x, s, t);
      assert s == [s[0]] + s[1..];
      assert Elements(s) == {s[0]} + Elements(s[1..]);
      assert Elements([s[0]] + t) == {s[0]} + Elements(t);
      [s[0]] + t
  }

  /** Python's `sorted(set(xs))`. */
  function SortedDistinct(xs: seq<string>): (r: seq<string>)
    ensures StrictlyAscending(r)
    ensures Elements(r) == Elements(xs)
    decreases |xs|
  {
    if |xs| == 0 then []
    else
      assert xs == xs[..|xs| - 1] + [xs[|xs| - 1]];
      InsertDistinct(xs[|xs| - 1], SortedDistinct(xs[..|xs| - 1]))
  }

  lemma NoElementsMeansEmpty(s: seq<string>)
    ensures Elements(s) == {} <==> |s| == 0
  {
    if 0 < |s| {
      assert s[0] in Elements(s);
    }
  }

  lemma HeadNotInTail(a: seq<string>)
    requires StrictlyAscending(a) && 0 < |a|
    ensures a[0] !in a[1..]
  {
    LessIrreflexive(a[0]);
  }

  /** An ascending, repetition-free list is determined by its set of elements. */
  lemma {:induction false} AscendingUnique(a: seq<string>, b: seq<string>)
    requires StrictlyAscending(a) && StrictlyAscending(b)
    requires Elements(a) == Elements(b)
    ensures a == b
    decreases |a|
  {
    NoElementsMeansEmpty(a);
    NoElementsMeansEmpty(b);
    if 0 < |a| && 0 < |b| {
      if a[0] != b[0] {
        assert a[0] in Elements(b) && b[0] in Elements(a);
        LessTransitive(a[0], b[0], a[0]);
        LessIrreflexive(a[0]);
        assert false;
      }
      HeadNotInTail(a);
      HeadNotInTail(b);
      assert a == [a[0]] + a[1..] && b == [b[0]] + b[1..];
      assert Elements(a[1..]) == Elements(a) - {a[0]};
      assert Elements(b[1..]) == Elements(b) - {b[0]};
      AscendingUnique(a[1..], b[1..]);
    }
  }

  /** Sorting and deduplicating twice gives the same list as doing it once. */
  lemma SortedDistinctIdempotent(xs: seq<string>)
    ensures SortedDistinct(SortedDistinct(xs)) == SortedDistinct(xs)
  {
    var once := SortedDistinct(xs);
    AscendingUnique(SortedDistinct(once), once);
  }

  predicate AllHaveUrl(metas: seq<Meta>) {
    forall i :: 0 <= i < |metas| ==> metas[i].url.Some?
  }

  /** Some record carries `url == u`. */
  predicate HasUrl(metas: seq<Meta>, u: string) {
    exists i :: 0 <= i < |metas| && metas[i].url == Some(u)
  }

  /** `[meta["url"] for meta in metadatas]`, defined when no record lacks the key. */
  function Urls(metas: seq<Meta>): (urls: seq<string>)
    requires AllHaveUrl(metas)
    ensures |urls| == |metas| && forall i :: 0 <= i < |metas| ==> metas[i].url == Some(urls[i])
    ensures forall u :: u in urls <==> HasUrl(metas, u)
  {
    var urls := seq(|metas|, i requires 0 <= i < |metas| => metas[i].url.value);
    assert forall i :: 0 <= i < |metas| ==> metas[i].url == Some(urls[i]);
    urls
  }

  /** The listing tool. A store error or a record without `url` is swallowed and gives `[]`. */
  function ListDocumentationPages(answer: StoreAnswer): (r: seq<string>)
    ensures StrictlyAscending(r)
    ensures answer.StoreFailed? ==> r == []
    ensures forall u :: u in r <==>
              answer.Answer? && AllHaveUrl(answer.metadatas) && HasUrl(answer.metadatas, u)
  {
    match answer
    case StoreFailed(_) => []
    case Answer(_, metas) =>
      if |metas| == 0 || !AllHaveUrl(metas) then []
      else
        var r := SortedDistinct(Urls(metas));
        assert forall u :: u in r <==> u in Elements(r);
        r
  }

  /** The listing depends only on which URLs are stored: neither the order of the records nor repeated URLs change it. */
  lemma ListingIgnoresOrderAndRepeats(a1: StoreAnswer, a2: StoreAnswer)
    requires a1.Answer? && a2.Answer?
    requires AllHaveUrl(a1.metadatas) && AllHaveUrl(a2.metadatas)
    requires forall u :: HasUrl(a1.metadatas, u) <==> HasUrl(a2.metadatas, u)
    ensures ListDocumentationPages(a1) == ListDocumentationPages(a2)
  {
    var r1 := ListDocumentationPages(a1);
    var r2 := ListDocumentationPages(a2);
    assert Elements(r1) == Elements(r2) by {
      forall u ensures u in Elements(r1) <==> u in Elements(r2) {
        assert u in Elements(r1) <==> u in r1;
        assert u in Elements(r2) <==> u in r2;
      }
    }
    AscendingUnique(r1, r2);
  }

  /** An empty listing means exactly: the store failed, it returned no records, or some record has no `url`. */
  lemma EmptyListingMeansNoUrls(answer: StoreAnswer)
    ensures ListDocumentationPages(answer) == [] <==>
              answer.StoreFailed? || |answer.metadatas| == 0 || !AllHaveUrl(answer.metadatas)
  {
    var r := ListDocumentationPages(answer);
    if answer.Answer? && 0 < |answer.metadatas| && AllHaveUrl(answer.metadatas) {
      assert HasUrl(answer.metadatas, answer.metadatas[0].url.value);
      assert answer.metadatas[0].url.value in r;
    }
  }
}

=== FILE: page.dfy ===
/** `get_page_content`: a page rebuilt from its chunks in `chunk_number` order under one heading. */
module Page {
  import opened Wrappers
  import opened Text
  import opened Store
  import opened ChunkSort

  const NoContent := "No content found for URL: "
  const PageError := "Error retrieving page content: "
  /** Chunk titles follow the "PageTitle - ChunkLabel" convention. */
  const TitleSeparator := " - "
  const ChunkSeparator := "\n\n"

  /** `title.split(" - ")[0]`: the title up to the first separator, or all of it when there is none. */
  function PageTitle(title: string): (r: string)
    ensures r <= title
    ensures forall i :: 0 <= i < |r| ==> !OccursAt(TitleSeparator, title, i)
    ensures |r| == |title| || OccursAt(TitleSeparator, title, |r|)
    decreases |title|
  {
    if |title| < |TitleSeparator| then title
    else if title[..|TitleSeparator|] == TitleSeparator then ""
    else
      var rest := PageTitle(title[1..]);
      var r := [title[0]] + rest;
      assert title[0..|TitleSeparator|] == title[..|TitleSeparator|];
      assert forall i :: 1 <= i < |r| ==> !OccursAt(TitleSeparator, title, i) by {
        forall i | 1 <= i < |r| ensures !OccursAt(TitleSeparator, title, i) {
          assert !OccursAt(TitleSeparator, title[1..], i - 1);
          OccursAtTail(TitleSeparator, title, i - 1);
        }
      }
      OccursAtTail(TitleSeparator, title, |rest|);
      r
  }

  /** The three properties above determine the page title: any prefix cut at the first separator is it. */
  lemma PageTitleIsFirstCut(title: string, p: string)
    requires p <= title
    requires forall i :: 0 <= i < |p| ==> !OccursAt(TitleSeparator, title, i)
    requires |p| == |title| || OccursAt(TitleSeparator, title, |p|)
    ensures PageTitle(title) == p
  {
    var r := PageTitle(title);
    assert |r| == |p|;
  }

  /** A page title never contains the separator. */
  lemma PageTitleHasNoSeparator(title: string)
    ensures !Contains(PageTitle(title), TitleSeparator)
  {
    var r := PageTitle(title);
    forall i | 0 <= i <= |r| ensures !OccursAt(TitleSeparator, r, i) {
      if i + |TitleSeparator| <= |r| {
        assert r[i..i + |TitleSeparator|] == title[i..i + |TitleSeparator|];
        assert !OccursAt(TitleSeparator, title, i);
      }
    }
  }

  /** Deriving the page title from a page title changes nothing. */
  lemma PageTitleIdempotent(title: string)
    ensures PageTitle(PageTitle(title)) == PageTitle(title)
  {
    var r := PageTitle(title);
    PageTitleHasNoSeparator(title);
    PageTitleIsFirstCut(r, r);
  }

  predicate NoHyphen(s: string) {
    forall j :: 0 <= j < |s| ==> s[j] != '-'
  }

  /** A title "P - rest" whose P has no hyphen at all gives the page title P. */
  lemma TitleBeforeSeparator(p: string, rest: string)
    requires NoHyphen(p)
    ensures PageTitle(p + TitleSeparator + rest) == p
  {
    var t := p + TitleSeparator + rest;
    assert t[|p|..|p| + |TitleSeparator|] == TitleSeparator;
    forall i | 0 <= i < |p| ensures !OccursAt(TitleSeparator, t, i) {
      assert t[i + 1] != '-';
    }
    PageTitleIsFirstCut(t, p);
  }

  lemma AcmeTitle()
    ensures PageTitle("Acme University - Introduction") == "Acme University"
  {
    AcmeParts();
    TitleBeforeSeparator("Acme University", "Introduction");
  }

  lemma AcmeParts()
    ensures NoHyphen("Acme University")
    ensures "Acme University" + TitleSeparator + "Introduction" == "Acme University - Introduction"
  {
  }

  function Heading(title: string): string {
    "# " + title + "\n"
  }

  /** `"\n\n".join([heading] + docs)`: the heading, then a blank line and a document for each chunk. */
  function PageText(title: string, docs: seq<string>): (r: string)
    ensures r == Heading(title) + PrefixEach(ChunkSeparator, docs)
  {
    JoinAfterHead(ChunkSeparator, Heading(title), docs);
    Join(ChunkSeparator, [Heading(title)] + docs)
  }

  function Docs(s: seq<Chunk>): (docs: seq<string>)
    ensures |docs| == |s| && forall i :: 0 <= i < |s| ==> docs[i] == s[i].doc
  {
    seq(|s|, i requires 0 <= i < |s| => s[i].doc)
  }

  /** The zipped chunks carry every key the page tool reads: a `chunk_number` each, and a `title` on the first in order. */
  predicate Assemblable(chunks: seq<Chunk>) {
    && AllKeyed(chunks)
    && 0 < |chunks|
    && SortByKey(chunks)[0].meta.title.Some?
  }

  /** The body of the tool once the store has answered with at least one document:
      every `chunk_number` is read, the chunks are sorted, the first one's `title` is read. */
  function AssemblePage(chunks: seq<Chunk>): (r: Result<string, Fault>)
    ensures r.Success? <==> Assemblable(chunks)
    ensures !AllKeyed(chunks) ==> r == Failure(MissingKey("chunk_number"))
    ensures AllKeyed(chunks) && |chunks| == 0 ==> r == Failure(IndexOutOfRange)
    ensures AllKeyed(chunks) && 0 < |chunks| && !Assemblable(chunks) ==> r == Failure(MissingKey("title"))
    ensures Assemblable(chunks) ==>
              r.value == Heading(PageTitle(SortByKey(chunks)[0].meta.title.value))
                         + PrefixEach(ChunkSeparator, Docs(SortByKey(chunks)))
  {
    if !AllKeyed(chunks) then Failure(MissingKey("chunk_number"))
    else
      var sorted := SortByKey(chunks);
      if |sorted| == 0 then Failure(IndexOutOfRange)
      else
        var title :- Title(sorted[0].meta);
        Success(PageText(PageTitle(title), Docs(sorted)))
  }

  /** The page tool; every raised error becomes an error string. */
  function GetPageContent(url: string, answer: StoreAnswer): (r: string)
    ensures answer.StoreFailed? ==> r == PageError + answer.message
    ensures answer.Answer? && |answer.documents| == 0 ==> r == NoContent + url
    ensures answer.Answer? && 0 < |answer.documents| ==>
              match AssemblePage(Zip(answer.documents, answer.metadatas))
              case Success(text) => r == text
              case Failure(f) => r == PageError + Message(f)
  {
    match answer
    case StoreFailed(m) => PageError + m
    case Answer(docs, metas) =>
      if |docs| == 0 then NoContent + url
      else
        match AssemblePage(Zip(docs, metas))
        case Success(text) => text
        case Failure(f) => PageError + Message(f)
  }

  /** The store failed, or the chunks lack a key the tool reads. */
  predicate PageFails(answer: StoreAnswer) {
    answer.StoreFailed? ||
    (0 < |answer.documents| && !Assemblable(Zip(answer.documents, answer.metadatas)))
  }

  /** The three kinds of page result can be told apart from the text alone. */
  lemma PageOutcomeIsRecognisable(url: string, answer: StoreAnswer)
    ensures PageError <= GetPageContent(url, answer) <==> PageFails(answer)
    ensures NoContent <= GetPageContent(url, answer) <==> answer.Answer? && |answer.documents| == 0
  {
    var r := GetPageContent(url, answer);
    if answer.Answer? && 0 < |answer.documents| && Assemblable(Zip(answer.documents, answer.metadatas)) {
      assert r[0] == '#';
    } else if answer.Answer? && |answer.documents| == 0 {
      assert r[0] == 'N';
    } else {
      assert r[0] == 'E';
    }
  }

  lemma KeyedAlike(z1: seq<Chunk>, z2: seq<Chunk>)
    requires multiset(z1) == multiset(z2)
    ensures AllKeyed(z1) ==> AllKeyed(z2)
  {
    forall j | 0 <= j < |z2| ensures z2[j] in multiset(z1) {
      assert z2[j] in multiset(z2);
    }
  }

  /** When chunk numbers are distinct, the page does not depend on the order in which the store returned its chunks. */
  lemma PageIgnoresRetrievalOrder(url: string, a1: StoreAnswer, a2: StoreAnswer)
    requires a1.Answer? && a2.Answer?
    requires |a1.documents| == |a1.metadatas| && |a2.documents| == |a2.metadatas|
    requires multiset(Zip(a1.documents, a1.metadatas)) == multiset(Zip(a2.documents, a2.metadatas))
    requires DistinctKeys(Zip(a1.documents, a1.metadatas)) && DistinctKeys(Zip(a2.documents, a2.metadatas))
    ensures GetPageContent(url, a1) == GetPageContent(url, a2)
  {
    var z1 := Zip(a1.documents, a1.metadatas);
    var z2 := Zip(a2.documents, a2.metadatas);
    assert |z1| == |multiset(z1)| == |multiset(z2)| == |z2|;
    KeyedAlike(z1, z2);
    KeyedAlike(z2, z1);
    SortIgnoresArrivalOrder(z1, z2);
    assert AssemblePage(z1) == AssemblePage(z2);
  }

  lemma FirstCutOfT()
    ensures PageTitle("T - 1") == "T"
  {
    assert NoHyphen("T");
    TitleBeforeSeparator("T", "1");
    assert "T" + TitleSeparator + "1" == "T - 1";
  }

  lemma WithKeyOfThree(a: Chunk, b: Chunk, c: Chunk, k: int)
    ensures WithKey([a, b, c], k) == Tie(a, k) + Tie(b, k) + Tie(c, k)
  {
    calc {
      WithKey([a, b, c], k);
      { assert [a, b, c][1..] == [b, c]; }
      Tie(a, k) + WithKey([b, c], k);
      { assert [b, c][1..] == [c]; }
      Tie(a, k) + (Tie(b, k) + WithKey([c], k));
      { assert [c][1..] == []; }
      Tie(a, k) + (Tie(b, k) + Tie(c, k));
    }
  }

  lemma AssemblesTwoChunks(m1: Meta, m2: Meta)
    requires m1.title == Some("T - 1") && m1.chunkNumber == Some(1) && m2.chunkNumber == Some(2)
    ensures AssemblePage([Chunk("A", m1), Chunk("B", m2)]) == Success("# T\n\n\nA\n\nB")
  {
    var z := [Chunk("A", m1), Chunk("B", m2)];
    assert SortedByKey(z);
    StableSortIsSortByKey(z, z);
    FirstCutOfT();
    assert Assemblable(z);
    assert Docs(z) == ["A", "B"];
    TwoChunkText();
  }

  lemma TwoChunkText()
    ensures Heading("T") + PrefixEach(ChunkSeparator, ["A", "B"]) == "# T\n\n\nA\n\nB"
  {
    assert PrefixEach(ChunkSeparator, ["A", "B"]) == "\n\nA\n\nB" by {
      assert ["A", "B"][1..] == ["B"] && ["B"][1..] == [];
    }
  }

  /** Two chunks "T - 1" and "T - 2" of one page, already in order: the heading's newline and the separator give three newlines after the title. */
  lemma TwoChunkPage(m1: Meta, m2: Meta)
    requires m1.title == Some("T - 1") && m1.chunkNumber == Some(1) && m2.chunkNumber == Some(2)
    ensures GetPageContent("u1", Answer(["A", "B"], [m1, m2])) == "# T\n\n\nA\n\nB"
  {
    var answer := Answer(["A", "B"], [m1, m2]);
    assert Zip(answer.documents, answer.metadatas) == [Chunk("A", m1), Chunk("B", m2)];
    AssemblesTwoChunks(m1, m2);
  }

  /** Chunks that arrive numbered 3, 1, 2 come out numbered 1, 2, 3. */
  lemma SortsOutOfOrderChunks(m1: Meta, m2: Meta, m3: Meta)
    requires m1.chunkNumber == Some(1) && m2.chunkNumber == Some(2) && m3.chunkNumber == Some(3)
    ensures SortByKey([Chunk("C", m3), Chunk("A", m1), Chunk("B", m2)])
            == [Chunk("A", m1), Chunk("B", m2), Chunk("C", m3)]
  {
    var z := [Chunk("C", m3), Chunk("A", m1), Chunk("B", m2)];
    var sorted := [Chunk("A", m1), Chunk("B", m2), Chunk("C", m3)];
    forall k ensures WithKey(sorted, k) == WithKey(z, k) {
      WithKeyOfThree(sorted[0], sorted[1], sorted[2], k);
      WithKeyOfThree(z[0], z[1], z[2], k);
    }
    StableSortIsSortByKey(sorted, z);
  }
}

=== FILE: search.dfy ===
/** `retrieve_relevant_documentation`: the ranked hits rendered as blocks joined by a horizontal rule. */
module Search {
  import opened Wrappers
  import opened Text
  import opened Store
  import opened Embedding

  const NoResults := "No relevant documentation found."
  const SearchError := "Error retrieving documentation: "
  const BlockSeparator := "\n\n---\n\n"

  /** The hit reads both keys the block needs. */
  predicate Renderable(c: Chunk) {
    c.meta.title.Some? && c.meta.url.Some?
  }

  predicate AllRenderable(cs: seq<Chunk>) {
    forall i :: 0 <= i < |cs| ==> Renderable(cs[i])
  }

  /** The triple-quoted block for one hit: heading, body, source line, each framed by newlines. */
  function Block(c: Chunk): (b: string)
    requires Renderable(c)
    ensures "\n# " + c.meta.title.value + "\n\n" <= b
    ensures OccursAt(c.doc, b, |c.meta.title.value| + 5)
    ensures EndsWith(b, "\n\nSource: " + c.meta.url.value + "\n")
  {
    var head := "\n# " + c.meta.title.value + "\n\n";
    var tail := "\n\nSource: " + c.meta.url.value + "\n";
    var b := head + c.doc + tail;
    assert b[|head|..|head| + |c.doc|] == c.doc;
    assert b[|b| - |tail|..] == tail;
    b
  }

  /** With its prefix, document and suffix, the block's length leaves no room for anything else: every character is fixed. */
  lemma BlockLength(c: Chunk)
    requires Renderable(c)
    ensures |Block(c)| == |c.meta.title.value| + |c.doc| + |c.meta.url.value| + 16
  {
  }

  /** Reads `title`, then `url`, as the f-string evaluates them, and renders the block. */
  function RenderChunk(c: Chunk): (r: Result<string, Fault>)
    ensures r.Success? <==> Renderable(c)
    ensures r.Success? ==> r.value == Block(c)
    ensures c.meta.title.None? ==> r == Failure(MissingKey("title"))
    ensures c.meta.title.Some? && c.meta.url.None? ==> r == Failure(MissingKey("url"))
  {
    var _ :- Title(c.meta);
    var _ :- Url(c.meta);
    Success(Block(c))
  }

  /** The missing key of the first hit that cannot be rendered. */
  function MissingOf(c: Chunk): Fault {
    if c.meta.title.None? then MissingKey("title") else MissingKey("url")
  }

  /** A first unrenderable hit of the tail, after a renderable head, is the first of the whole list. */
  lemma FirstFailureOfTail(cs: seq<Chunk>, f: Fault)
    requires 0 < |cs| && Renderable(cs[0])
    requires exists i :: 0 <= i < |cs| - 1 && !Renderable(cs[1..][i]) && f == MissingOf(cs[1..][i]) &&
                         forall j :: 0 <= j < i ==> Renderable(cs[1..][j])
    ensures exists i :: 0 <= i < |cs| && !Renderable(cs[i]) && f == MissingOf(cs[i]) &&
                        forall j :: 0 <= j < i ==> Renderable(cs[j])
  {
    var i :| 0 <= i < |cs| - 1 && !Renderable(cs[1..][i]) && f == MissingOf(cs[1..][i]) &&
             forall j :: 0 <= j < i ==> Renderable(cs[1..][j]);
    forall j | 1 <= j < i + 1 ensures Renderable(cs[j]) {
      assert cs[j] == cs[1..][j - 1];
    }
    assert cs[i + 1] == cs[1..][i];
  }

  /** The loop over the zipped hits: one block per hit in ranking order, or the first missing key. */
  function RenderAll(cs: seq<Chunk>): (r: Result<seq<string>, Fault>)
    ensures r.Success? <==> AllRenderable(cs)
    ensures r.Success? ==> |r.value| == |cs| && forall i :: 0 <= i < |cs| ==> r.value[i] == Block(cs[i])
    ensures r.Failure? ==>
              exists i :: 0 <= i < |cs| && !Renderable(cs[i]) && r.error == MissingOf(cs[i]) &&
                          forall j :: 0 <= j < i ==> Renderable(cs[j])
    decreases |cs|
  {
    if |cs| == 0 then Success([])
    else
      match RenderChunk(cs[0])
      case Failure(f) => Failure(f)
      case Success(b) =>
        match RenderAll(cs[1..])
        case Failure(f) =>
          FirstFailureOfTail(cs, f);
          Failure(f)
        case Success(rest) => Success([b] + rest)
  }

  /** The first hit that cannot be rendered decides the error. */
  lemma {:induction false} FirstUnrenderable(cs: seq<Chunk>, i: nat)
    requires i < |cs| && !Renderable(cs[i])
    requires forall j :: 0 <= j < i ==> Renderable(cs[j])
    ensures RenderAll(cs) == Failure(MissingOf(cs[i]))
  {
    var r := RenderAll(cs);
    var k :| 0 <= k < |cs| && !Renderable(cs[k]) && r.error == MissingOf(cs[k]) &&
             forall j :: 0 <= j < k ==> Renderable(cs[j]);
    assert k == i;
  }

  /** The store failed, or some zipped hit lacks a key the block reads. */
  predicate SearchFails(answer: StoreAnswer) {
    answer.StoreFailed? ||
    (0 < |answer.documents| && !AllRenderable(Zip(answer.documents, answer.metadatas)))
  }

  /** The search result for a store answer. */
  function SearchText(answer: StoreAnswer): (r: string)
    ensures answer.StoreFailed? ==> r == SearchError + answer.message
    ensures answer.Answer? && |answer.documents| == 0 ==> r == NoResults
    ensures answer.Answer? && 0 < |answer.documents| && !SearchFails(answer) ==>
              var hits := Zip(answer.documents, answer.metadatas);
              r == Join(BlockSeparator, seq(|hits|, i requires 0 <= i < |hits| => Block(hits[i])))
    ensures answer.Answer? && 0 < |answer.documents| && SearchFails(answer) ==>
              var hits := Zip(answer.documents, answer.metadatas);
              exists i :: 0 <= i < |hits| && !Renderable(hits[i]) &&
                (forall j :: 0 <= j < i ==> Renderable(hits[j])) &&
                r == SearchError + Message(MissingOf(hits[i]))
  {
    match answer
    case StoreFailed(m) => SearchError + m
    case Answer(docs, metas) =>
      if |docs| == 0 then NoResults
      else
        match RenderAll(Zip(docs, metas))
        case Success(blocks) =>
          var hits := Zip(docs, metas);
          assert blocks == seq(|hits|, i requires 0 <= i < |hits| => Block(hits[i]));
          Join(BlockSeparator, blocks)
        case Failure(f) => SearchError + Message(f)
  }

  /** The three kinds of search result can be told apart from the text alone: no successful rendering starts like an error or equals the sentinel. */
  lemma SearchOutcomeIsRecognisable(answer: StoreAnswer)
    ensures SearchError <= SearchText(answer) <==> SearchFails(answer)
    ensures SearchText(answer) == NoResults <==> answer.Answer? && |answer.documents| == 0
  {
    var r := SearchText(answer);
    if answer.Answer? && 0 < |answer.documents| && !SearchFails(answer) {
      var hits := Zip(answer.documents, answer.metadatas);
      var blocks := seq(|hits|, i requires 0 <= i < |hits| => Block(hits[i]));
      if 0 < |blocks| {
        JoinStartsWithFirst(BlockSeparator, blocks);
        assert r[0] == '\n';
      } else {
        assert r == "";
      }
    } else if answer.Answer? && |answer.documents| == 0 {
      assert r[0] == 'N';
    } else {
      assert r[0] == 'E';
    }
  }

  /** The tool body as written: the loop appends one block per zipped hit and returns at the first missing key. */
  method FormatSearchResults(answer: StoreAnswer) returns (r: string)
    ensures r == SearchText(answer)
  {
    if answer.StoreFailed? {
      return SearchError + answer.message;
    }
    if |answer.documents| == 0 {
      return NoResults;
    }
    var hits := Zip(answer.documents, answer.metadatas);
    var formatted: seq<string> := [];
    var i := 0;
    while i < |hits|
      invariant 0 <= i <= |hits|
      invariant |formatted| == i
      invariant forall j :: 0 <= j < i ==> Renderable(hits[j]) && formatted[j] == Block(hits[j])
    {
      var hit := hits[i];
      if hit.meta.title.None? {
        FirstUnrenderable(hits, i);
        return SearchError + Message(MissingKey("title"));
      }
      if hit.meta.url.None? {
        FirstUnrenderable(hits, i);
        return SearchError + Message(MissingKey("url"));
      }
      formatted := formatted + [Block(hit)];
      i := i + 1;
    }
    assert AllRenderable(hits);
    assert RenderAll(hits).value == formatted;
    r := Join(BlockSeparator, formatted);
  }

  /** The tool: embed the query, ask the store for its nearest hits, render them.
      A failed embedding is not an error: the store is asked with the zero vector instead. */
  function RetrieveRelevantDocumentation(embedding: EmbeddingResponse, query: seq<real> -> StoreAnswer): (r: string)
    ensures r == SearchText(query(if embedding.Responded? && 0 < |embedding.data| then embedding.data[0]
                                  else seq(Dimension, _ => 0.0)))
    ensures SearchError <= r <==> SearchFails(query(GetEmbedding(embedding)))
  {
    var v := GetEmbedding(embedding);
    assert embedding.EmbeddingFailed? || |embedding.data| == 0 ==> v == seq(Dimension, _ => 0.0);
    SearchOutcomeIsRecognisable(query(v));
    SearchText(query(v))
  }

  lemma IntroBlock(m: Meta)
    requires m.title == Some("Intro") && m.url == Some("u1")
    ensures Block(Chunk("A", m)) == "\n# Intro\n\nA\n\nSource: u1\n"
  {
  }

  lemma FeesBlock(m: Meta)
    requires m.title == Some("Fees") && m.url == Some("u2")
    ensures Block(Chunk("B", m)) == "\n# Fees\n\nB\n\nSource: u2\n"
  {
  }

  /** Two hits from different pages: both blocks, in ranking order, each ending with its own source line. */
  lemma TwoHits(m1: Meta, m2: Meta)
    requires m1.title == Some("Intro") && m1.url == Some("u1")
    requires m2.title == Some("Fees") && m2.url == Some("u2")
    ensures SearchText(Answer(["A", "B"], [m1, m2]))
            == "\n# Intro\n\nA\n\nSource: u1\n" + BlockSeparator + "\n# Fees\n\nB\n\nSource: u2\n"
  {
    var answer := Answer(["A", "B"], [m1, m2]);
    var hits := Zip(answer.documents, answer.metadatas);
    assert hits == [Chunk("A", m1), Chunk("B", m2)];
    assert AllRenderable(hits);
    var blocks := seq(|hits|, i requires 0 <= i < |hits| => Block(hits[i]));
    assert blocks == [Block(hits[0]), Block(hits[1])];
    assert Join(BlockSeparator, blocks) == blocks[0] + BlockSeparator + blocks[1] by {
      assert blocks[1..] == [blocks[1]];
    }
    IntroBlock(m1);
    FeesBlock(m2);
  }
}

=== FILE: store.dfy ===
/** What the vector store hands to the tools, and the errors the tools can raise while reading it. */
module Store {
  import opened Wrappers

  /** A metadata dictionary; each key the tools read may be missing. */
  datatype Meta = Meta(title: Option<string>, url: Option<string>, chunkNumber: Option<int>)

  /** One stored document fragment paired with its metadata. */
  datatype Chunk = Chunk(doc: string, meta: Meta)

  /** The answer of a collection `query` or `get`: parallel document and metadata lists, or a raised error. */
  datatype StoreAnswer = Answer(documents: seq<string>, metadatas: seq<Meta>) | StoreFailed(message: string)

  /** An exception raised inside a tool body. */
  datatype Fault =
    | MissingKey(key: string)  // KeyError on a metadata dictionary
    | IndexOutOfRange          // IndexError on an empty list
    | StoreError(message: string)

  /** `str(e)` of the exception. */
  function Message(f: Fault): (r: string)
    ensures f.MissingKey? ==>
              |r| == |f.key| + 2 && r[0] == '\'' && r[|r| - 1] == '\'' && r[1..|r| - 1] == f.key
    ensures f.IndexOutOfRange? ==> r == "list index out of range"
    ensures f.StoreError? ==> r == f.message
  {
    match f
    case MissingKey(k) => "'" + k + "'"
    case IndexOutOfRange => "list index out of range"
    case StoreError(m) => m
  }

  /** A `KeyError` message names its key and nothing else, and never reads like the `IndexError` message. */
  lemma KeyMessagesDistinct(a: string, b: string)
    ensures Message(MissingKey(a)) == Message(MissingKey(b)) <==> a == b
    ensures Message(MissingKey(a)) != Message(IndexOutOfRange)
  {
    var ma, mb := Message(MissingKey(a)), Message(MissingKey(b));
    if ma == mb {
      assert a == ma[1..|ma| - 1] == mb[1..|mb| - 1] == b;
    }
    assert ma[0] == '\'' != 'l' == Message(IndexOutOfRange)[0];
  }

  function Min(a: nat, b: nat): nat {
    if a <= b then a else b
  }

  /** Python's `zip(documents, metadatas)`: pairs up to the shorter list. */
  function Zip(docs: seq<string>, metas: seq<Meta>): (r: seq<Chunk>)
    ensures |r| == Min(|docs|, |metas|)
    ensures forall i :: 0 <= i < |r| ==> r[i] == Chunk(docs[i], metas[i])
  {
    seq(Min(|docs|, |metas|), i requires 0 <= i < Min(|docs|, |metas|) => Chunk(docs[i], metas[i]))
  }

  /** `metadata["title"]`. */
  function Title(m: Meta): Result<string, Fault> {
    match m.title
    case Some(t) => Success(t)
    case None => Failure(MissingKey("title"))
  }

  /** `metadata["url"]`. */
  function Url(m: Meta): Result<string, Fault> {
    match m.url
    case Some(u) => Success(u)
    case None => Failure(MissingKey("url"))
  }
}

=== FILE: string_order.dfy ===
/** Python's ordering of `str` values: lexicographic by code point, a proper prefix first. */
module StringOrder {

  predicate Less(a: string, b: string)
    decreases |a|
  {
    0 < |b| && (|a| == 0 || a[0] < b[0] || (a[0] == b[0] && Less(a[1..], b[1..])))
  }

  lemma {:induction false} LessIrreflexive(a: string)
    ensures !Less(a, a)
    decreases |a|
  {
    if 0 < |a| {
      LessIrreflexive(a[1..]);
    }
  }

  lemma {:induction false} LessTransitive(a: string, b: string, c: string)
    requires Less(a, b) && Less(b, c)
    ensures Less(a, c)
    decreases |a|
  {
    if 0 < |a| && a[0] == b[0] && b[0] == c[0] {
      LessTransitive(a[1..], b[1..], c[1..]);
    }
  }

  lemma {:induction false} LessTotal(a: string, b: string)
    requires a != b
    ensures Less(a, b) || Less(b, a)
    decreases |a|
  {
    if 0 < |a| && 0 < |b| && a[0] == b[0] {
      assert a == [a[0]] + a[1..] && b == [b[0]] + b[1..];
      LessTotal(a[1..], b[1..]);
    }
  }

  /** Ascending without repetitions. */
  predicate StrictlyAscending(s: seq<string>) {
    forall i, j :: 0 <= i < j < |s| ==> Less(s[i], s[j])
  }
}

=== FILE: text.dfy ===
/** String helpers with the meaning Python gives them. */
module Text {

  /** `pat` occurs in `s` starting at index `i`. */
  predicate OccursAt(pat: string, s: string, i: int) {
    0 <= i && i + |pat| <= |s| && s[i..i + |pat|] == pat
  }

  /** Python's `pat in s`. */
  predicate Contains(s: string, pat: string) {
    exists i :: 0 <= i <= |s| && OccursAt(pat, s, i)
  }

  /** Shifting a string by one character shifts every occurrence by one. */
  lemma OccursAtTail(pat: string, s: string, i: nat)
    requires 0 < |s|
    ensures OccursAt(pat, s[1..], i) <==> OccursAt(pat, s, i + 1)
  {
    if i + 1 + |pat| <= |s| {
      assert s[1..][i..i + |pat|] == s[i + 1..i + 1 + |pat|];
    }
  }

  /** Python's `s.endswith(suffix)`. */
  predicate EndsWith(s: string, suffix: string) {
    |suffix| <= |s| && s[|s| - |suffix|..] == suffix
  }

  /** Total length of the parts. */
  function TotalLength(parts: seq<string>): nat
    decreases |parts|
  {
    if |parts| == 0 then 0 else |parts[0]| + TotalLength(parts[1..])
  }

  /** Python's `sep.join(parts)`: the parts in order with one `sep` between neighbours. */
  function Join(sep: string, parts: seq<string>): (r: string)
    ensures |parts| == 0 ==> r == ""
    ensures 0 < |parts| ==> parts[0] <= r
    ensures 0 < |parts| ==> |r| == TotalLength(parts) + (|parts| - 1) * |sep|
    decreases |parts|
  {
    if |parts| == 0 then ""
    else if |parts| == 1 then parts[0]
    else parts[0] + sep + Join(sep, parts[1..])
  }

  /** Every part preceded by `sep`, all concatenated. */
  function PrefixEach(sep: string, parts: seq<string>): string
    decreases |parts|
  {
    if |parts| == 0 then "" else sep + parts[0] + PrefixEach(sep, parts[1..])
  }

  /** A join with a leading head is the head followed by `sep + part` for each remaining part. */
  lemma {:induction false} JoinAfterHead(sep: string, head: string, parts: seq<string>)
    ensures Join(sep, [head] + parts) == head + PrefixEach(sep, parts)
    decreases |parts|
  {
    if |parts| > 0 {
      calc {
        Join(sep, [head] + parts);
        { assert ([head] + parts)[1..] == parts; }
        head + sep + Join(sep, parts);
        { assert parts == [parts[0]] + parts[1..]; JoinAfterHead(sep, parts[0], parts[1..]); }
        head + sep + (parts[0] + PrefixEach(sep, parts[1..]));
      }
    }
  }

  /** A join of at least one part starts with the first part. */
  lemma JoinStartsWithFirst(sep: string, parts: seq<string>)
    requires 0 < |parts|
    ensures parts[0] <= Join(sep, parts)
  {
    assert parts == [parts[0]] + parts[1..];
    JoinAfterHead(sep, parts[0], parts[1..]);
  }
}

=== FILE: wrappers.dfy ===
/** Failure-compatible wrappers: a possibly missing value, and a value or a failure. */
module Wrappers {

  /** A value that may be absent, such as a key missing from a metadata dictionary. */
  datatype Option<+T> = None | Some(value: T) {

    /** The value if present, otherwise `default`. */
    function GetOr(default: T): T {
      match this
      case Some(v) => v
      case None => default
    }
  }

  /** The outcome of a step that may raise: a value, or the error it raised. */
  datatype Result<+T, +E> = Success(value: T) | Failure(error: E) {

    predicate IsFailure() {
      Failure?
    }

    function PropagateFailure<U>(): Result<U, E>
      requires Failure?
    {
      Failure(error)
    }

    function Extract(): T
      requires Success?
    {
      value
    }
  }
}
